=== FILE: README.md ===
# Command-logger relay: a Dafny model

The relay accepts a "command triggered" notification over HTTP (`POST /notify`).
It checks an optional bearer secret and validates the JSON body. It then formats the
payload into a chat-platform embed and posts that embed to a log channel, retrying once
when the platform answers 429 (rate limited).

The model covers the handler's decision and formatting logic in `main.py`, as pure functions:

- `wrappers.dfy`, module `Wrappers`: `Option`, for a missing header or payload key and
  for a Python operation that raises.
- `json.dfy`, module `Json`: the decoded body as a JSON tree, plus the three Python
  operations the handler applies to it. These are `dict.get`, the `in` operator
  (a key, element or substring test, or `TypeError`) and `str()`.
- `auth.dfy`, module `Auth`: `auth_ok`.
- `embed.dfy`, module `Embeds`: `make_embed`. This covers the defaults, the four fixed
  fields, one field per `extra` entry, truncation to the 1024-character field limit and
  the fixed metadata.
- `delivery.dfy`, module `Delivery`: the control flow of `send_embed` over abstract answers.
  `network(k)` is what the k-th post gets back: a status plus whether a 429's wait could be
  taken, or no answer at all (the post raised).
- `notify.dfy`, module `Notifier`: `notify`, which checks in a fixed order, maps each outcome
  to its HTTP status, and reports the embed handed to delivery and the number of posts.

Parameters stand in for the environment. The configured secret and display name form
`Config`. The formatting time is an ISO-8601 string supplied by the caller. The platform's
answers are the `network` function.

Behaviour of the code worth knowing, all modelled:

- Not every field value is a string. `bot_name` and `description` go into the embed as they
  arrived (main.py:39-40, 56), so `Field.value` is a JSON value. Only the two formatted fields
  and the `extra` fields are strings.
- Only `extra` values are truncated (main.py:46-48). The four fixed fields are shown whole
  (`Embeds.FixedFieldsUntruncated`).
- `request.is_json` tests only the content type (main.py:88). A body declared as JSON that does
  not decode is answered 400 by the framework while decoding (`FrameworkBadRequest`), not by the
  handler.
- Some faults escape the handler. A decoded body that is not an object either makes
  `"command" in payload` raise (null, boolean, number) or passes that test and makes
  `make_embed` raise (a string containing "command", a list containing "command"). Both happen
  outside the `try` (main.py:92-95), so the framework answers 500 (`FrameworkError`). A string
  or list without "command" gets the handler's 400.
- The Python decoder accepts `NaN`, `Infinity` and `-Infinity`. If one of them is in the bot
  name or description, the HTTP client cannot encode the embed. It raises before anything is
  posted, and the handler answers 500 "unexpected error" (`Notifier.NonFiniteNeverPosted`).
- `if not AUTH_SECRET` also disables the check when the secret is set to the empty string
  (`Auth.Disabled`).
- The details of a failed delivery never include the platform's response text (the finding
  below). `Notifier.Notify` takes a `Policy`: `AsWritten` is the handler as written, `Corrected`
  the fix.

## Model

| member | source | states |
|---|---|---|
| `Auth.AuthOk` | main.py:20-25 | with no secret (or an empty one) every request passes; otherwise a request passes iff its header is present and equals "Bearer " followed by the secret |
| `Auth.OpenWithoutSecret` | main.py:22-23 | without a secret, requests with and without a header pass |
| `Auth.ClosedWithSecret` | main.py:24-25 | with a secret, a missing header is refused, any header other than the exact credential is refused, and the exact credential passes |
| `Auth.BareSecretRefused` | main.py:24-25 | the comparison is exact: the secret without the "Bearer " prefix is refused |
| `Json.Get` | main.py:28-33 | `payload.get(key)` finds a value iff the key is present, and the value found is one stored under that key |
| `Json.GetAt` | main.py:28-33 | `get` returns the value of the first member with that key |
| `Json.GetUnique` | main.py:28-33 | in an object with distinct keys, as a Python dict has, `get` returns the one value stored under the key |
| `Json.Membership` | main.py:92 | `"command" in payload`: on an object, true iff `get` finds the key; on a list, true iff some element is the string "command"; on a string, true iff "command" occurs at some index, found by a left-to-right scan; on null, booleans and numbers it raises |
| `Json.FindFrom` | main.py:92 | the substring search behind `in` on a string: the index found is an occurrence with none before it, and no index is found only when there is no occurrence |
| `Json.Str` | main.py:46 | `str(v)` leaves a string unchanged, gives an atom its Python text, and brackets a list or dict repr |
| `Embeds.ValueOr` | main.py:28-33 | `payload.get(key, default)` is the value stored under the key when it is present and the default when it is absent |
| `Embeds.Truncate` | main.py:46-48 | the result is at most 1024 characters; it is unchanged iff the input fits; a longer input keeps its first 1020 characters followed by one ellipsis, 1021 in all |
| `Embeds.TruncateIdempotent` | main.py:47-48 | a truncated value is within the limit, so truncating it again leaves it unchanged |
| `Embeds.ExtraFields` | main.py:43-49 | one field per `extra` entry, same count and order, named by the key, not inline, holding the truncated text of the value |
| `Embeds.MakeEmbed` | main.py:27-60 | the embed has four fields plus one per `extra` entry, and its author is the value of the "Bot used" field |
| `Embeds.Metadata` | main.py:51-58 | fixed title, description and colour 0x2F3136; the timestamp is the one supplied; the footer is the display name followed by " • logged"; the author repeats the "Bot used" field |
| `Embeds.FixedPrefix` | main.py:28-41 | the first four fields have fixed labels, in order, with inline flags true, true, true, false, and show the command in backticks, "user (`id`)", the bot name and the description |
| `Embeds.Defaults` | main.py:28-41 | in any payload, each missing key shows its default: "`<unknown>`", "Unknown user", "unknown", "Unknown Bot" (also as author) and "No description provided.", whatever the other keys hold |
| `Embeds.FixedFieldsUntruncated` | main.py:36-41 | a description of any length appears whole in the fourth field |
| `Embeds.NonObjectExtra` | main.py:43-44 | when `extra` is absent or not an object, the embed has exactly four fields |
| `Embeds.ExtraEntries` | main.py:43-49 | field 4+i is named by the i-th `extra` key; it holds the i-th value's text when that is at most 1024 characters, and otherwise its first 1020 characters followed by "…" |
| `Embeds.ExtraValuesBounded` | main.py:45-49 | every field after the fixed four holds a string of at most 1024 characters |
| `Embeds.OnlySixKeysRead` | main.py:28-33 | two payloads that agree on the six keys read produce the same embed |
| `Embeds.EncodableIff` | main.py:36-58 | the embed can be encoded as JSON iff the bot name and the description hold no non-finite number, since every other field value is a string |
| `Embeds.ExtraNamesAreKeys` | main.py:45-49 | the extra fields' names are exactly the `extra` keys, in iteration order |
| `Delivery.Attempts` | main.py:69-76 | with r retries allowed there are 1 to r+1 posts; every post but the last got a usable 429; the delivery succeeds iff the last post was answered with a status outside 400-599, and fails with that status otherwise, unless it was a 429 with a retry left |
| `Delivery.SendEmbed` | main.py:62-77 | an embed that cannot be encoded faults with no post; otherwise one or two posts, two iff the first answer is a 429 whose wait can be taken; success iff the final status is outside 400-599; an HTTP error carries the final status |
| `Delivery.RetryOnlyOnce` | main.py:72-76 | a second 429 is not retried: the delivery fails with 429 after two posts |
| `Delivery.RetryThenSuccess` | main.py:72-76 | 429 then 200 delivers after two posts |
| `Delivery.ServerErrorNoRetry` | main.py:69-76 | a 500 on the first post fails at once with no second post |
| `Delivery.UnusableWaitFaults` | main.py:73-74 | a 429 whose `retry_after` cannot be slept on raises before any second post |
| `Notifier.StatusCode` | main.py:84-103 | 200 only for success, 401 only for failed authorisation, 400 only for the three body rejections, and 500 otherwise |
| `Notifier.AsWrittenNeverShowsResponse` | main.py:98-99 | as written, every HTTP error the status check raises gets its details from the exception text, never from the response |
| `Notifier.FailureDetailsAsWritten` | main.py:98-99 | the response text is chosen only when a response is present and truthy (a status outside 400-599) and then names that response; otherwise the exception text |
| `Notifier.FailureDetails` | main.py:98-99 | corrected rule: the details come from the response exactly when the error carries one, and name that response |
| `Notifier.CorrectedShowsResponse` | main.py:98-99 | under the corrected rule, every HTTP error the status check raises gets the platform's response text for that status |
| `Notifier.CorrectionScope` | main.py:98-99 | the as-written and corrected rules differ exactly when the error carries a response whose status the check raises for |
| `Notifier.Respond` | main.py:96-103 | 200 iff the delivery succeeded; an HTTP error gives "failed to send", with the exception text as written or the response text when corrected; any other exception gives "unexpected error" |
| `Notifier.Notify` | main.py:84-103 | at most two posts; an embed is handed to delivery iff the request is authorised and its body is a JSON object with `command`, and it is that payload's embed; nothing is posted iff that embed cannot be encoded; failed authorisation always gives 401; a delivered request is answered as `Respond` maps the result of `SendEmbed`, with its post count |
| `Notifier.AuthCheckedFirst` | main.py:85-86 | a failed authorisation gives 401 whatever the body, with no delivery |
| `Notifier.NonJsonRejected` | main.py:88-89 | an authorised body not declared as JSON gives 400 with no delivery |
| `Notifier.UndecodableRejected` | main.py:88-91 | an authorised body declared as JSON that does not decode is refused 400 by the framework at `get_json()`, with no embed and no post |
| `Notifier.MissingCommandRejected` | main.py:91-93 | an authorised JSON object without `command` gives 400 with no delivery |
| `Notifier.AcceptedIffDelivered` | main.py:95-103 | the answer is 200 iff the request is deliverable and the delivery of its embed succeeds |
| `Notifier.FailedDeliveryAnswered500` | main.py:96-101 | a deliverable request whose delivery does not succeed is answered 500: "failed to send" exactly for an HTTP error (a second 429, a 5xx, a 4xx), "unexpected error" exactly for any other fault (a timeout, an unusable wait, an unencodable embed) |
| `Notifier.SecondPostOnlyAfterRateLimit` | main.py:72-75 | there are two posts iff the request is deliverable, its embed can be encoded, and the first answer is a 429 whose wait can be taken |
| `Notifier.NonObjectNeverDelivered` | main.py:91-95 | a decoded body that is not an object is never delivered and never answered 200; once authorised, null, booleans and numbers, and strings or lists holding "command", get the framework's 500, and other strings or lists get the handler's 400 |
| `Notifier.NonFiniteNeverPosted` | main.py:95-101 | a deliverable request whose bot name or description holds NaN or an infinity gets 500 "unexpected error" with no post |
| `Notifier.PoliciesDifferOnlyInDetails` | main.py:96-103 | the as-written and corrected handlers make the same posts, hand over the same embed and answer the same status; their outcomes differ only in a failed delivery's details |
| `Notifier.AcceptedOnFirstPost` | main.py:95-103 | a deliverable request with an encodable embed whose first post is answered 200 is answered 200 after that single post |
| `Notifier.BanEmbed` | main.py:36-41 | a sample ban notification's embed shows "`ban`", "alice (`42`)" and "banned for spam" |
| `Notifier.BanExample` | main.py:84-103 | with no secret and a 200 answer, the sample ban notification is answered 200 after one post, and its embed is the one delivered |
| `Notifier.ServerErrorAnswered500` | main.py:96-99 | a deliverable request with an encodable embed whose first post gets 500 is answered 500 after a single post, with the exception text as written and the response text when corrected |

## Left out

- Flask routing, `jsonify` and the `/` liveness route: framework plumbing with no decisions.
- The JSON response bodies: each `Outcome` constructor of the handler stands for exactly one of
  its literal bodies ("unauthorized", "expected JSON body", "missing 'command' field", "failed to
  send to Discord", "unexpected error" and `{"ok": True}`, main.py:86, 89, 93, 99, 101, 103).
  `FrameworkBadRequest` and `FrameworkError` stand for Flask's own 400 and 500 pages.
  The exception detail texts (`str(e)`, main.py:99 and 101) are library strings; `Details` says
  where they come from.
- Real HTTP: the URL, channel id, headers, bot token and the 10-second timeout. A timeout or
  connection error is a `NoAnswer`.
- The length of the rate-limit sleep (`retry / 1000`): it is float arithmetic and wall-clock
  time. Only whether the sleep can be taken is modelled (`Answer.waitUsable`).
- Environment loading, its defaults and the startup `ValueError` for a missing bot token:
  configuration is a parameter.
- `datetime.now(...).isoformat()`: the timestamp is an input.
- JSON decoding itself. A decoded object is expected to have distinct keys (`Json.DistinctKeys`),
  as the Python dict has. Nothing enforces this, and raw text with a duplicate key is not
  modelled: Python keeps the last value, while `Json.Get` returns the first. Numbers, booleans
  and null carry their Python `str()` text. Lone surrogates, which Python strings can hold, are
  not Dafny characters.
- Json.Str: in a list or dict repr, characters above U+00FF are shown as themselves. CPython
  escapes the non-printable ones among them, as `\u`/`\U` sequences.

## Findings

| source | as written | input that shows it | evidently intended | confidence | as-written member | corrected member |
|---|---|---|---|---|---|---|
| main.py:98-99 | the details come from `e.response.text` only when `e.response` is truthy. A `requests` response is truthy only when its status is below 400 or at least 600, and `raise_for_status` raises only for 400-599. So the details are always `str(e)` | the platform answers 500 (or 400 explaining a rejected embed); the reply carries "500 Server Error: … for url: …" instead of the platform's body | use the platform's response text whenever the error carries a response (`is not None`) | high; not executed | `Notifier.FailureDetailsAsWritten`, shown by `Notifier.AsWrittenNeverShowsResponse` and `Notifier.CorrectionScope` | `Notifier.FailureDetails`, proved by `Notifier.CorrectedShowsResponse`; `Notifier.Notify` runs either rule through its `Policy` |

=== FILE: auth.dfy ===
/** The optional bearer-token check on inbound notifications. */
module Auth {
  import opened Wrappers

  /** The credential prefix an inbound request must carry before the secret. */
  const BearerPrefix := "Bearer "

  /** The check is switched off when no secret is configured, and also when
      the configured secret is the empty string (Python treats "" as false). */
  predicate Disabled(secret: Option<string>)
  {
    secret.None? || secret.value == ""
  }

  /** Decides whether a request with the given `Authorization` header (absent
      or present) is let through, given the configured secret. */
  function AuthOk(secret: Option<string>, header: Option<string>): (ok: bool)
    ensures Disabled(secret) ==> ok
    ensures !Disabled(secret) ==> (ok <==> header == Some(BearerPrefix + secret.value))
  {
    if Disabled(secret) then true
    else header.GetOr("") == BearerPrefix + secret.value
  }

  /** Without a secret every request passes, with or without a header. */
  lemma OpenWithoutSecret(header: Option<string>)
    ensures AuthOk(None, header)
    ensures AuthOk(Some(""), header)
  {
  }

  /** With a secret configured, a request without the header is refused,
      and so is any header other than the exact expected credential. */
  lemma ClosedWithSecret(secret: string, header: Option<string>)
    requires secret != ""
    ensures !AuthOk(Some(secret), None)
    ensures header != Some(BearerPrefix + secret) ==> !AuthOk(Some(secret), header)
    ensures AuthOk(Some(secret), Some(BearerPrefix + secret))
  {
  }

  /** The comparison is exact: the bare secret without the prefix fails. */
  lemma BareSecretRefused(secret: string)
    requires secret != ""
    ensures !AuthOk(Some(secret), Some(secret))
  {
    assert |Some(secret).value| < |BearerPrefix + secret|;
  }
}

=== FILE: delivery.dfy ===
/** Posting the embed to the chat platform, with one retry when the platform
    answers 429 (rate limited).  The network is a parameter: `network(k)` is
    what the k-th post of this delivery gets back. */
module Delivery {

  /** What one post gets back.  `Answer` carries the HTTP status and, for a
      429, whether the wait could be taken: the body is a JSON object whose
      `retry_after` is absent (one millisecond) or a non-negative number of
      milliseconds.  `NoAnswer` is a post that raised after the body was
      encoded (timeout, refused connection).  A body the client cannot
      encode raises before any post; see `SendEmbed`. */
  datatype Answer = Answer(status: int, waitUsable: bool) | NoAnswer

  /** How a delivery ends: the final status passed the status check, the
      status check raised an HTTP error, or some other exception escaped
      (no answer, an unusable wait, or a body that cannot be encoded). */
  datatype Result = Sent(status: int) | HttpError(status: int) | Fault

  datatype Delivery = Delivery(result: Result, posts: nat)

  const TooManyRequests := 429

  /** The statuses the HTTP client's status check raises for: client and
      server errors, 400 through 599. */
  predicate RaisesForStatus(status: int)
  {
    400 <= status < 600
  }

  /** An answer that asks for, and allows, another post. */
  predicate RetryRequested(a: Answer)
  {
    a == Answer(TooManyRequests, true)
  }

  /** Posts starting with the k-th, allowing `retries` further posts after
      rate-limited answers.  The delivery stops at the first answer that is
      not a usable 429, or when no retry is left. */
  function Attempts(network: nat -> Answer, k: nat, retries: nat): (d: Delivery)
    decreases retries
    ensures 1 <= d.posts <= retries + 1
    ensures forall j :: k <= j < k + d.posts - 1 ==> RetryRequested(network(j))
    ensures d.posts <= retries ==> !RetryRequested(network(k + d.posts - 1))
    ensures var last := network(k + d.posts - 1);
      && (d.result.Sent? <==> last.Answer? && !RaisesForStatus(last.status))
      && (d.result.HttpError? <==>
            last.Answer? && RaisesForStatus(last.status)
            && !(last.status == TooManyRequests && d.posts <= retries))
      && (!d.result.Fault? ==> d.result.status == last.status)
  {
    match network(k)
    case NoAnswer => Delivery(Fault, 1)
    case Answer(status, waitUsable) =>
      if status == TooManyRequests && retries > 0 then
        if !waitUsable then Delivery(Fault, 1)
        else
          var d := Attempts(network, k + 1, retries - 1);
          Delivery(d.result, d.posts + 1)
      else if RaisesForStatus(status) then Delivery(HttpError(status), 1)
      else Delivery(Sent(status), 1)
  }

  /** The delivery of one embed.  When the embed cannot be encoded as JSON
      the client raises before posting.  Otherwise there is one post, and
      one more only after a rate-limited first answer. */
  function SendEmbed(encodable: bool, network: nat -> Answer): (d: Delivery)
    ensures !encodable ==> d.posts == 0 && d.result.Fault?
    ensures encodable ==> d.posts == 1 || d.posts == 2
    ensures d.posts == 2 <==> encodable && RetryRequested(network(0))
    ensures encodable ==> var last := network(d.posts - 1);
      && (d.result.Sent? <==> last.Answer? && !RaisesForStatus(last.status))
      && (d.result.HttpError? <==>
            last.Answer? && RaisesForStatus(last.status)
            && !(d.posts == 1 && last.status == TooManyRequests))
      && (!d.result.Fault? ==> d.result.status == last.status)
  {
    if !encodable then Delivery(Fault, 0)
    else Attempts(network, 0, 1)
  }

  /** A second 429 is not retried again: it fails the delivery. */
  lemma RetryOnlyOnce(network: nat -> Answer)
    requires RetryRequested(network(0))
    requires network(1).Answer? && network(1).status == 429
    ensures SendEmbed(true, network) == Delivery(HttpError(429), 2)
  {
  }

  /** A rate-limited first post followed by a success delivers the embed. */
  lemma RetryThenSuccess(network: nat -> Answer)
    requires network(0) == Answer(429, true) && network(1) == Answer(200, false)
    ensures SendEmbed(true, network) == Delivery(Sent(200), 2)
  {
  }

  /** A server error on the first post fails at once, with no retry. */
  lemma ServerErrorNoRetry(network: nat -> Answer)
    requires network(0).Answer? && network(0).status == 500
    ensures SendEmbed(true, network) == Delivery(HttpError(500), 1)
  {
  }

  /** A 429 whose wait cannot be taken ends the delivery with an exception
      before any second post. */
  lemma UnusableWaitFaults(network: nat -> Answer)
    requires network(0) == Answer(429, false)
    ensures SendEmbed(true, network) == Delivery(Fault, 1)
  {
  }
}

=== FILE: embed.dfy ===
/** Formatting a notification payload into the chat platform's embed: four
    fixed fields, one field per `extra` entry, and fixed metadata. */
module Embeds {
  import opened Wrappers
  import opened Json

  /** One labelled field; `value` is a JSON value because the bot name and
      the description are placed in the embed as they arrived. */
  datatype Field = Field(name: string, value: Json, inline: bool)

  datatype Embed = Embed(
    title: string,
    description: string,
    timestamp: string,
    color: int,
    author: Json,
    fields: seq<Field>,
    footer: string)

  const Title := "Command Triggered"
  const Summary := "A command or trigger was used in the server."
  const AccentColor := 0x2F3136
  const Ellipsis: char := '\U{2026}'
  const FooterSuffix := " \U{2022} logged"

  /** The platform's limit on a field value, and how much of a longer value
      is kept in front of the ellipsis. */
  const FieldLimit := 1024
  const KeptPrefix := 1020

  const CommandLabel := "Command / Trigger"
  const WhoLabel := "Who triggered it"
  const BotLabel := "Bot used"
  const WhatLabel := "What it did"

  /** Python's `payload.get(key, default)`: the stored value when the key
      is present, the default when it is absent. */
  function ValueOr(p: seq<(string, Json)>, key: string, default: Json): (r: Json)
    ensures HasKey(p, key) ==> Get(p, key) == Some(r)
    ensures !HasKey(p, key) ==> r == default
  {
    Get(p, key).GetOr(default)
  }

  /** The payload keys the formatter reads, with their defaults. */
  function CommandOf(p: seq<(string, Json)>): Json { ValueOr(p, "command", JStr("<unknown>")) }
  function UsernameOf(p: seq<(string, Json)>): Json { ValueOr(p, "username", JStr("Unknown user")) }
  function UserIdOf(p: seq<(string, Json)>): Json { ValueOr(p, "user_id", JStr("unknown")) }
  function DescriptionOf(p: seq<(string, Json)>): Json { ValueOr(p, "description", JStr("No description provided.")) }
  function BotNameOf(p: seq<(string, Json)>): Json { ValueOr(p, "bot_name", JStr("Unknown Bot")) }

  /** The `extra` entries that become fields: none unless `extra` is an object. */
  function ExtraOf(p: seq<(string, Json)>): seq<(string, Json)>
  {
    match Get(p, "extra")
    case Some(JObject(ms)) => ms
    case _ => []
  }

  /** Cuts a value that is too long for a field down to its first 1020
      characters and an ellipsis. */
  function Truncate(s: string): (r: string)
    ensures |r| <= FieldLimit
    ensures r == s <==> |s| <= FieldLimit
    ensures |s| > FieldLimit ==>
      |r| == KeptPrefix + 1 && r[..KeptPrefix] == s[..KeptPrefix] && r[KeptPrefix] == Ellipsis
  {
    if |s| > FieldLimit then s[..KeptPrefix] + [Ellipsis] else s
  }

  /** A truncated value already fits: truncating it again changes nothing. */
  lemma TruncateIdempotent(s: string)
    ensures Truncate(Truncate(s)) == Truncate(s)
  {
  }

  /** One non-inline field per `extra` entry, in the entries' order, each
      named by its key and holding the truncated text of its value. */
  function ExtraFields(ms: seq<(string, Json)>): (fs: seq<Field>)
    ensures |fs| == |ms|
    ensures forall i :: 0 <= i < |ms| ==>
      fs[i] == Field(ms[i].0, JStr(Truncate(Str(ms[i].1))), false)
  {
    if |ms| == 0 then []
    else [Field(ms[0].0, JStr(Truncate(Str(ms[0].1))), false)] + ExtraFields(ms[1..])
  }

  /** The four fields every embed starts with. */
  function FixedFields(p: seq<(string, Json)>): seq<Field>
  {
    [ Field(CommandLabel, JStr("`" + Str(CommandOf(p)) + "`"), true),
      Field(WhoLabel, JStr(Str(UsernameOf(p)) + " (`" + Str(UserIdOf(p)) + "`)"), true),
      Field(BotLabel, BotNameOf(p), true),
      Field(WhatLabel, DescriptionOf(p), false) ]
  }

  /** The embed for a payload object, the configured display name and the
      time of formatting (an ISO-8601 text supplied by the caller). */
  function MakeEmbed(p: seq<(string, Json)>, displayName: string, timestamp: string): (e: Embed)
    ensures |e.fields| == 4 + |ExtraOf(p)|
    ensures e.author == e.fields[2].value
  {
    Embed(Title, Summary, timestamp, AccentColor, BotNameOf(p),
          FixedFields(p) + ExtraFields(ExtraOf(p)), displayName + FooterSuffix)
  }

  /** The metadata is fixed apart from the footer's display name, the
      timestamp and the author, which repeats the "Bot used" field. */
  lemma Metadata(p: seq<(string, Json)>, displayName: string, timestamp: string)
    ensures var e := MakeEmbed(p, displayName, timestamp);
      && e.title == "Command Triggered"
      && e.description == "A command or trigger was used in the server."
      && e.color == 3092790
      && e.timestamp == timestamp
      && e.footer == displayName + " \U{2022} logged"
      && e.fields[2].name == "Bot used"
      && e.author == e.fields[2].value
  {
  }

  /** The first four fields, their labels, layout and values; a missing key
      shows its default. */
  lemma FixedPrefix(p: seq<(string, Json)>, displayName: string, timestamp: string)
    ensures var f := MakeEmbed(p, displayName, timestamp).fields;
      && f[0] == Field("Command / Trigger", JStr("`" + Str(CommandOf(p)) + "`"), true)
      && f[1] == Field("Who triggered it", JStr(Str(UsernameOf(p)) + " (`" + Str(UserIdOf(p)) + "`)"), true)
      && f[2] == Field("Bot used", BotNameOf(p), true)
      && f[3] == Field("What it did", DescriptionOf(p), false)
  {
  }

  /** Each key the formatter reads that is missing from the payload shows
      its default, whatever the other keys hold. */
  lemma Defaults(p: seq<(string, Json)>, displayName: string, timestamp: string)
    ensures var e := MakeEmbed(p, displayName, timestamp);
      && (!HasKey(p, "command") ==> e.fields[0].value == JStr("`<unknown>`"))
      && (!HasKey(p, "username") ==>
            e.fields[1].value == JStr("Unknown user" + " (`" + Str(UserIdOf(p)) + "`)"))
      && (!HasKey(p, "user_id") ==>
            e.fields[1].value == JStr(Str(UsernameOf(p)) + " (`unknown`)"))
      && (!HasKey(p, "bot_name") ==>
            e.fields[2].value == JStr("Unknown Bot") && e.author == JStr("Unknown Bot"))
      && (!HasKey(p, "description") ==>
            e.fields[3].value == JStr("No description provided."))
  {
    FixedPrefix(p, displayName, timestamp);
    DefaultTexts(Str(UsernameOf(p)));
  }

  /** The formatted texts of the defaults.  A helper for the solver: it
      keeps these literal concatenations out of `Defaults`' proof. */
  lemma DefaultTexts(user: string)
    ensures "`" + "<unknown>" + "`" == "`<unknown>`"
    ensures user + " (`" + "unknown" + "`)" == user + " (`unknown`)"
  {
    assert "`" + "<unknown>" + "`" == "`<unknown>`";
    assert user + " (`" + "unknown" + "`)" == user + " (`unknown`)";
  }

  /** The fixed fields are never truncated: a description of any length is
      shown whole. */
  lemma FixedFieldsUntruncated(p: seq<(string, Json)>, d: string, displayName: string, timestamp: string)
    requires Get(p, "description") == Some(JStr(d))
    ensures MakeEmbed(p, displayName, timestamp).fields[3].value == JStr(d)
  {
  }

  /** When `extra` is not an object (or absent), there are exactly the four
      fixed fields. */
  lemma NonObjectExtra(p: seq<(string, Json)>, displayName: string, timestamp: string)
    requires !(Get(p, "extra").Some? && Get(p, "extra").value.JObject?)
    ensures |MakeEmbed(p, displayName, timestamp).fields| == 4
  {
  }

  /** After the fixed fields come the `extra` entries, in order: field
      4 + i is named by the i-th key; its value keeps the text of the i-th
      value when that fits the limit, and otherwise its first 1020
      characters followed by the ellipsis. */
  lemma ExtraEntries(p: seq<(string, Json)>, ms: seq<(string, Json)>, displayName: string, timestamp: string)
    requires Get(p, "extra") == Some(JObject(ms))
    ensures var f := MakeEmbed(p, displayName, timestamp).fields;
      && |f| == 4 + |ms|
      && forall i :: 0 <= i < |ms| ==>
        && f[4 + i].name == ms[i].0
        && !f[4 + i].inline
        && f[4 + i].value.JStr?
        && (|Str(ms[i].1)| <= 1024 ==> f[4 + i].value.s == Str(ms[i].1))
        && (|Str(ms[i].1)| > 1024 ==>
              f[4 + i].value.s == Str(ms[i].1)[..1020] + "\U{2026}")
  {
    assert ExtraOf(p) == ms;
    var f := MakeEmbed(p, displayName, timestamp).fields;
    var xs := ExtraFields(ms);
    assert f == FixedFields(p) + xs;
    forall i | 0 <= i < |ms|
      ensures f[4 + i].name == ms[i].0 && !f[4 + i].inline && f[4 + i].value == JStr(Truncate(Str(ms[i].1)))
    {
      assert f[4 + i] == xs[i];
    }
  }

  /** Every field after the fixed four holds a string of at most 1024
      characters. */
  lemma ExtraValuesBounded(p: seq<(string, Json)>, displayName: string, timestamp: string)
    ensures var f := MakeEmbed(p, displayName, timestamp).fields;
      forall j :: 4 <= j < |f| ==> f[j].value.JStr? && |f[j].value.s| <= 1024
  {
    var f := MakeEmbed(p, displayName, timestamp).fields;
    forall j | 4 <= j < |f|
      ensures f[j].value.JStr? && |f[j].value.s| <= 1024
    {
      assert f[j] == ExtraFields(ExtraOf(p))[j - 4];
    }
  }

  /** True when the HTTP client can encode the embed as JSON: no value in it
      holds a non-finite number. */
  predicate EmbedEncodable(e: Embed)
  {
    && Encodable(e.author)
    && forall i :: 0 <= i < |e.fields| ==> Encodable(e.fields[i].value)
  }

  /** Only the raw bot name and description can make an embed unencodable:
      every other field value is a string. */
  lemma EncodableIff(p: seq<(string, Json)>, displayName: string, timestamp: string)
    ensures EmbedEncodable(MakeEmbed(p, displayName, timestamp)) <==>
      Encodable(BotNameOf(p)) && Encodable(DescriptionOf(p))
  {
    var e := MakeEmbed(p, displayName, timestamp);
    var xs := ExtraFields(ExtraOf(p));
    EncodableParts(e, FixedFields(p), xs);
  }

  /** An embed whose fields are four fixed ones followed by string fields,
      with the author repeating the third, is encodable iff the third and
      fourth values are. */
  lemma EncodableParts(e: Embed, fixed: seq<Field>, xs: seq<Field>)
    requires |fixed| == 4 && e.fields == fixed + xs
    requires fixed[0].value.JStr? && fixed[1].value.JStr? && e.author == fixed[2].value
    requires forall i :: 0 <= i < |xs| ==> xs[i].value.JStr?
    ensures EmbedEncodable(e) <==> Encodable(fixed[2].value) && Encodable(fixed[3].value)
  {
    if Encodable(fixed[2].value) && Encodable(fixed[3].value) {
      forall i | 0 <= i < |e.fields|
        ensures Encodable(e.fields[i].value)
      {
        if i >= 4 {
          assert e.fields[i] == xs[i - 4];
        } else {
          assert e.fields[i] == fixed[i];
        }
      }
    }
    if EmbedEncodable(e) {
      assert e.fields[3] == fixed[3];
    }
  }

  /** The embed depends on the payload only through the six keys it reads. */
  lemma OnlySixKeysRead(p: seq<(string, Json)>, q: seq<(string, Json)>, displayName: string, timestamp: string)
    requires forall k :: k in ["command", "username", "user_id", "description", "bot_name", "extra"] ==> Get(p, k) == Get(q, k)
    ensures MakeEmbed(p, displayName, timestamp) == MakeEmbed(q, displayName, timestamp)
  {
    assert Get(p, "command") == Get(q, "command");
    assert Get(p, "username") == Get(q, "username");
    assert Get(p, "user_id") == Get(q, "user_id");
    assert Get(p, "description") == Get(q, "description");
    assert Get(p, "bot_name") == Get(q, "bot_name");
    assert Get(p, "extra") == Get(q, "extra");
  }

  /** The names of a field list, in order. */
  function Names(fs: seq<Field>): seq<string>
  {
    if |fs| == 0 then [] else [fs[0].name] + Names(fs[1..])
  }

  /** The keys of an object's members, in order. */
  function Keys(ms: seq<(string, Json)>): seq<string>
  {
    if |ms| == 0 then [] else [ms[0].0] + Keys(ms[1..])
  }

  /** The extra fields' names are exactly the `extra` keys, in order. */
  lemma {:induction false} ExtraNamesAreKeys(ms: seq<(string, Json)>)
    ensures Names(ExtraFields(ms)) == Keys(ms)
  {
    if |ms| > 0 {
      ExtraNamesAreKeys(ms[1..]);
      assert ExtraFields(ms)[1..] == ExtraFields(ms[1..]);
    }
  }
}

=== FILE: json.dfy ===
/** The decoded JSON body of a notification and the few Python operations the
    handler applies to it: `dict.get`, the `in` operator and `str()`. */
module Json {
  import opened Wrappers

  /** A decoded JSON value as the Python decoder returns it.
      `JAtom` is null, a boolean or a finite number, carrying the text
      Python's `str()` gives it (`None`, `True`, `42`, `2.5`).  `JNonFinite`
      is one of the numbers `NaN`, `Infinity` and `-Infinity`, which the
      Python decoder accepts and the HTTP client's encoder refuses; its text
      is `nan`, `inf` or `-inf`.  An object lists its members in insertion
      order; a decoded Python dict has distinct keys (`DistinctKeys`). */
  datatype Json =
    | JAtom(text: string)
    | JNonFinite(text: string)
    | JStr(s: string)
    | JList(items: seq<Json>)
    | JObject(members: seq<(string, Json)>)

  /** True when some member of `ms` is named `key` (Python's `key in d`). */
  predicate HasKey(ms: seq<(string, Json)>, key: string)
  {
    exists i :: 0 <= i < |ms| && ms[i].0 == key
  }

  /** No two members share a key, as in a Python dict. */
  predicate DistinctKeys(ms: seq<(string, Json)>)
  {
    forall i, j :: 0 <= i < j < |ms| ==> ms[i].0 != ms[j].0
  }

  /** Python's `d.get(key)`: the value stored under `key`, if any. */
  function Get(ms: seq<(string, Json)>, key: string): (r: Option<Json>)
    ensures r.Some? <==> HasKey(ms, key)
    ensures r.Some? ==> exists i :: 0 <= i < |ms| && ms[i] == (key, r.value)
  {
    if |ms| == 0 then None
    else if ms[0].0 == key then Some(ms[0].1)
    else
      var r := Get(ms[1..], key);
      assert r.Some? ==> exists i :: 1 <= i < |ms| && ms[i] == (key, r.value) by {
        if r.Some? {
          var j :| 0 <= j < |ms[1..]| && ms[1..][j] == (key, r.value);
          assert ms[j + 1] == (key, r.value);
        }
      }
      assert HasKey(ms[1..], key) ==> HasKey(ms, key) by {
        if HasKey(ms[1..], key) {
          var j :| 0 <= j < |ms[1..]| && ms[1..][j].0 == key;
          assert ms[j + 1].0 == key;
        }
      }
      assert HasKey(ms, key) ==> HasKey(ms[1..], key) by {
        if HasKey(ms, key) {
          var j :| 0 <= j < |ms| && ms[j].0 == key;
          assert j != 0;
          assert ms[1..][j - 1].0 == key;
        }
      }
      r
  }

  /** The value found is the one of the first member with that key. */
  lemma {:induction false} GetAt(ms: seq<(string, Json)>, key: string, i: int)
    requires 0 <= i < |ms| && ms[i].0 == key
    requires forall j :: 0 <= j < i ==> ms[j].0 != key
    ensures Get(ms, key) == Some(ms[i].1)
  {
    if i > 0 {
      GetAt(ms[1..], key, i - 1);
    }
  }

  /** Under distinct keys, `Get` returns the one value stored under a key. */
  lemma GetUnique(ms: seq<(string, Json)>, key: string, i: int)
    requires DistinctKeys(ms)
    requires 0 <= i < |ms| && ms[i].0 == key
    ensures Get(ms, key) == Some(ms[i].1)
  {
    GetAt(ms, key, i);
  }

  /** Python's `needle in v` for a string needle: a key test on an object,
      an element test on a list and a substring search on a string.  On
      null, a boolean or a number Python raises `TypeError`, modelled as
      `None`. */
  function Membership(needle: string, v: Json): (r: Option<bool>)
    ensures r.None? <==> v.JAtom? || v.JNonFinite?
    ensures v.JObject? ==> r == Some(Get(v.members, needle).Some?)
    ensures v.JList? ==>
      (r == Some(true) <==> exists i :: 0 <= i < |v.items| && v.items[i] == JStr(needle))
    ensures v.JStr? ==> r.Some? && (r.value <==> exists i :: OccursAt(needle, v.s, i))
  {
    match v
    case JAtom(_) => None
    case JNonFinite(_) => None
    case JStr(s) =>
      var found := FindFrom(needle, s, 0);
      assert found.None? ==> forall i :: !OccursAt(needle, s, i);
      Some(found.Some?)
    case JList(items) => Some(JStr(needle) in items)
    case JObject(ms) => Some(HasKey(ms, needle))
  }

  /** True when `p` occurs in `s` starting at index `i`. */
  predicate OccursAt(p: string, s: string, i: int)
  {
    0 <= i <= |s| - |p| && s[i..i + |p|] == p
  }

  /** The first index at or after `from` where `p` occurs in `s`, found by
      scanning left to right. */
  function FindFrom(p: string, s: string, from: nat): (r: Option<nat>)
    decreases |s| - from
    ensures r.Some? ==> from <= r.value && OccursAt(p, s, r.value)
    ensures r.Some? ==> forall i :: from <= i < r.value ==> !OccursAt(p, s, i)
    ensures r.None? ==> forall i :: from <= i ==> !OccursAt(p, s, i)
  {
    if from + |p| > |s| then None
    else if s[from..from + |p|] == p then Some(from)
    else FindFrom(p, s, from + 1)
  }

  /** True when the value holds no non-finite number anywhere, so that a
      JSON encoder that refuses `NaN` and the infinities accepts it. */
  predicate Encodable(v: Json)
    decreases v
  {
    match v
    case JAtom(_) => true
    case JNonFinite(_) => false
    case JStr(_) => true
    case JList(items) => forall i :: 0 <= i < |items| ==> Encodable(items[i])
    case JObject(ms) => forall i :: 0 <= i < |ms| ==> MemberEncodable(v, ms[i])
  }

  predicate MemberEncodable(parent: Json, m: (string, Json))
    requires parent.JObject? && m in parent.members
    decreases parent, 0
  {
    Encodable(m.1)
  }

  /** Python's `str(v)`: a string is itself, anything else is its `repr`. */
  function Str(v: Json): (r: string)
    ensures v.JStr? ==> r == v.s
    ensures v.JAtom? || v.JNonFinite? ==> r == v.text
    ensures v.JList? ==> |r| >= 2 && r[0] == '[' && r[|r| - 1] == ']'
    ensures v.JObject? ==> |r| >= 2 && r[0] == '{' && r[|r| - 1] == '}'
  {
    if v.JStr? then v.s else Repr(v)
  }

  /** Python's `repr(v)` for a decoded JSON value: strings are quoted,
      lists and dicts show their elements' reprs separated by ", ". */
  function Repr(v: Json): string
    decreases v
  {
    match v
    case JAtom(t) => t
    case JNonFinite(t) => t
    case JStr(s) => Quote(s)
    case JList(items) =>
      "[" + Join(seq(|items|, i requires 0 <= i < |items| => Repr(items[i]))) + "]"
    case JObject(ms) =>
      "{" + Join(seq(|ms|, i requires 0 <= i < |ms| => MemberRepr(v, ms[i]))) + "}"
  }

  /** `'key': value` inside the repr of the object `parent`. */
  function MemberRepr(parent: Json, m: (string, Json)): string
    requires parent.JObject? && m in parent.members
    decreases parent, 0
  {
    Quote(m.0) + ": " + Repr(m.1)
  }

  /** The parts separated by ", ". */
  function Join(parts: seq<string>): string
  {
    if |parts| == 0 then ""
    else if |parts| == 1 then parts[0]
    else parts[0] + ", " + Join(parts[1..])
  }

  /** CPython's string repr: single quotes unless the text holds a single
      quote and no double quote; the chosen quote, backslash and control
      characters are escaped. */
  function Quote(s: string): (r: string)
    ensures |r| >= |s| + 2
    ensures r[0] == r[|r| - 1] == QuoteFor(s)
  {
    var q := QuoteFor(s);
    [q] + EscapeAll(s, q) + [q]
  }

  /** The quote character CPython chooses for the repr of `s`. */
  function QuoteFor(s: string): (q: char)
    ensures q == '"' <==> ('\'' in s && '"' !in s)
    ensures q == '"' || q == '\''
  {
    if '\'' in s && '"' !in s then '"' else '\''
  }

  function EscapeAll(s: string, q: char): (r: string)
    ensures |r| >= |s|
  {
    if |s| == 0 then "" else Escape(s[0], q) + EscapeAll(s[1..], q)
  }

  /** One character of a string repr.  Characters above U+00FF are shown
      as themselves. */
  function Escape(c: char, q: char): (r: string)
    ensures |r| >= 1
    ensures ' ' <= c < '\U{7F}' && c != q && c != '\\' ==> r == [c]
  {
    if c == q || c == '\\' then ['\\', c]
    else if c == '\t' then "\\t"
    else if c == '\n' then "\\n"
    else if c == '\r' then "\\r"
    else if c < ' ' || ('\U{7F}' <= c <= '\U{A0}') || c == '\U{AD}' then
      "\\x" + [HexDigit(c as int / 16), HexDigit(c as int % 16)]
    else [c]
  }

  function HexDigit(d: int): char
    requires 0 <= d < 16
  {
    "0123456789abcdef"[d]
  }
}

=== FILE: notify.dfy ===
/** The `/notify` handler: authorisation, body validation, formatting and
    delivery, in that order, and the HTTP answer each outcome gets. */
module Notifier {
  import opened Wrappers
  import opened Json
  import opened Auth
  import opened Embeds
  import opened Delivery

  /** Read-only configuration: the optional inbound secret and the display
      name shown in embed footers. */
  datatype Config = Config(secret: Option<string>, displayName: string)

  /** What the handler sees of an inbound request.  The body is either not
      declared as JSON (content type), declared as JSON but not decodable,
      or a decoded JSON value. */
  datatype Body = NotJsonContent | Undecodable | Decoded(value: Json)
  datatype Request = Request(authorization: Option<string>, body: Body)

  /** Where the details of a failed delivery come from: the text of the
      platform's response with the given status, or the text of the raised
      exception. */
  datatype Details = ResponseText(status: int) | ExceptionText

  /** Which rule picks the details of an HTTP error: the handler as
      written, or the corrected rule (see `FailureDetails`). */
  datatype Policy = AsWritten | Corrected

  datatype Outcome =
    | Unauthorized          // 401 {"error": "unauthorized"}
    | NotJson               // 400 {"error": "expected JSON body"}
    | FrameworkBadRequest   // 400 raised by the framework while decoding the body
    | MissingCommand        // 400 {"error": "missing 'command' field"}
    | FrameworkError        // 500 an exception escaped the handler
    | SendFailed(details: Details)  // 500 {"error": "failed to send to Discord", ...}
    | Unexpected            // 500 {"error": "unexpected error", ...}
    | Accepted              // 200 {"ok": true}

  /** The HTTP status each outcome is answered with. */
  function StatusCode(o: Outcome): (code: int)
    ensures code == 200 <==> o.Accepted?
    ensures code == 401 <==> o.Unauthorized?
    ensures code == 400 <==> (o.NotJson? || o.FrameworkBadRequest? || o.MissingCommand?)
    ensures code in {200, 400, 401, 500}
  {
    match o
    case Unauthorized => 401
    case NotJson => 400
    case FrameworkBadRequest => 400
    case MissingCommand => 400
    case FrameworkError => 500
    case SendFailed(_) => 500
    case Unexpected => 500
    case Accepted => 200
  }

  /** One handled request: its outcome, the embed handed to delivery (if
      any) and the number of posts made to the platform. */
  datatype Handling = Handling(outcome: Outcome, sent: Option<Embed>, posts: nat)

  /** The requests that reach delivery: authorised, with a decoded JSON
      object that has a `command` member. */
  predicate Deliverable(config: Config, req: Request)
  {
    && AuthOk(config.secret, req.authorization)
    && req.body.Decoded?
    && req.body.value.JObject?
    && HasKey(req.body.value.members, "command")
  }

  /** The truth value of an HTTP client response: it is its `ok` flag, which
      is false exactly for the statuses the status check raises for. */
  predicate ResponseTruthy(status: int)
  {
    !RaisesForStatus(status)
  }

  /** Details of an HTTP error as the handler is written: the response text
      when the error's response is present and truthy, else the exception
      text.  `response` is the status of the response the error carries. */
  function FailureDetailsAsWritten(response: Option<int>): (d: Details)
    ensures d.ResponseText? ==> response == Some(d.status)
  {
    if response.Some? && ResponseTruthy(response.value) then ResponseText(response.value)
    else ExceptionText
  }

  /** The intended details: the response text whenever the error carries a
      response, the exception text otherwise. */
  function FailureDetails(response: Option<int>): (d: Details)
    ensures d.ResponseText? <==> response.Some?
    ensures d.ResponseText? ==> response == Some(d.status)
  {
    match response
    case Some(status) => ResponseText(status)
    case None => ExceptionText
  }

  /** The details the handler reports under a policy. */
  function DetailsFor(policy: Policy, response: Option<int>): Details
  {
    match policy
    case AsWritten => FailureDetailsAsWritten(response)
    case Corrected => FailureDetails(response)
  }

  /** As written, the response text is never used for an error raised by the
      status check: every status it raises for makes the response falsy. */
  lemma AsWrittenNeverShowsResponse(status: int)
    requires RaisesForStatus(status)
    ensures FailureDetailsAsWritten(Some(status)) == ExceptionText
  {
  }

  /** The corrected rule shows the platform's response for every error the
      status check raises. */
  lemma CorrectedShowsResponse(status: int)
    requires RaisesForStatus(status)
    ensures FailureDetails(Some(status)) == ResponseText(status)
  {
  }

  /** The two rules differ exactly on a present response that is falsy,
      which is every response the status check raises for. */
  lemma CorrectionScope(response: Option<int>)
    ensures FailureDetailsAsWritten(response) != FailureDetails(response) <==>
      response.Some? && RaisesForStatus(response.value)
  {
  }

  /** The answer to a finished delivery.  An HTTP error carries the response
      whose status the check raised for. */
  function Respond(d: Delivery, policy: Policy): (o: Outcome)
    requires d.result.HttpError? ==> RaisesForStatus(d.result.status)
    ensures o.Accepted? <==> d.result.Sent?
    ensures o.SendFailed? <==> d.result.HttpError?
    ensures d.result.HttpError? && policy.AsWritten? ==> o == SendFailed(ExceptionText)
    ensures d.result.HttpError? && policy.Corrected? ==> o == SendFailed(ResponseText(d.result.status))
    ensures d.result.Fault? <==> o.Unexpected?
  {
    match d.result
    case Sent(_) => Accepted
    case HttpError(status) => SendFailed(DetailsFor(policy, Some(status)))
    case Fault => Unexpected
  }

  /** Handles one request.  The checks run in a fixed order, and delivery
      happens only when all of them pass. */
  function Notify(config: Config, req: Request, timestamp: string, network: nat -> Answer,
                  policy: Policy): (h: Handling)
    ensures h.posts <= 2
    ensures h.posts > 0 ==> h.sent.Some?
    ensures h.sent.Some? <==> Deliverable(config, req)
    ensures !AuthOk(config.secret, req.authorization) ==> h.outcome == Unauthorized
    ensures h.sent.Some? ==>
      h.sent.value == MakeEmbed(req.body.value.members, config.displayName, timestamp)
    ensures h.sent.Some? ==> (h.posts == 0 <==> !EmbedEncodable(h.sent.value))
    ensures h.sent.Some? ==>
      var d := SendEmbed(EmbedEncodable(h.sent.value), network);
      h.outcome == Respond(d, policy) && h.posts == d.posts
  {
    if !AuthOk(config.secret, req.authorization) then Handling(Unauthorized, None, 0)
    else
      match req.body
      case NotJsonContent => Handling(NotJson, None, 0)
      case Undecodable => Handling(FrameworkBadRequest, None, 0)
      case Decoded(payload) =>
        match Membership("command", payload)
        case None => Handling(FrameworkError, None, 0)
        case Some(false) => Handling(MissingCommand, None, 0)
        case Some(true) =>
          if !payload.JObject? then Handling(FrameworkError, None, 0)
          else
            var embed := MakeEmbed(payload.members, config.displayName, timestamp);
            var d := SendEmbed(EmbedEncodable(embed), network);
            Handling(Respond(d, policy), Some(embed), d.posts)
  }

  /** A failed authorisation answers 401 before the body is looked at. */
  lemma AuthCheckedFirst(config: Config, req: Request, timestamp: string, network: nat -> Answer,
                         policy: Policy)
    requires !AuthOk(config.secret, req.authorization)
    ensures var h := Notify(config, req, timestamp, network, policy);
      StatusCode(h.outcome) == 401 && h.posts == 0 && h.sent == None
  {
  }

  /** An authorised request whose body is not declared as JSON gets 400,
      with no delivery. */
  lemma NonJsonRejected(config: Config, auth: Option<string>, timestamp: string,
                        network: nat -> Answer, policy: Policy)
    requires AuthOk(config.secret, auth)
    ensures var h := Notify(config, Request(auth, NotJsonContent), timestamp, network, policy);
      h.outcome == NotJson && StatusCode(h.outcome) == 400 && h.posts == 0 && h.sent == None
  {
  }

  /** An authorised request declared as JSON whose body does not decode is
      refused with 400 by the framework, with no delivery. */
  lemma UndecodableRejected(config: Config, auth: Option<string>, timestamp: string,
                            network: nat -> Answer, policy: Policy)
    requires AuthOk(config.secret, auth)
    ensures var h := Notify(config, Request(auth, Undecodable), timestamp, network, policy);
      h.outcome == FrameworkBadRequest && StatusCode(h.outcome) == 400 && h.posts == 0 && h.sent == None
  {
  }

  /** An authorised JSON object without `command` gets 400, with no
      delivery. */
  lemma MissingCommandRejected(config: Config, auth: Option<string>, ms: seq<(string, Json)>,
                               timestamp: string, network: nat -> Answer, policy: Policy)
    requires AuthOk(config.secret, auth)
    requires !HasKey(ms, "command")
    ensures var h := Notify(config, Request(auth, Decoded(JObject(ms))), timestamp, network, policy);
      h.outcome == MissingCommand && StatusCode(h.outcome) == 400 && h.posts == 0
  {
  }

  /** The request succeeds exactly when it is deliverable, its embed can be
      encoded, and the delivery's final status passes the status check. */
  lemma AcceptedIffDelivered(config: Config, req: Request, timestamp: string,
                             network: nat -> Answer, policy: Policy)
    ensures var h := Notify(config, req, timestamp, network, policy);
      StatusCode(h.outcome) == 200 <==>
        && Deliverable(config, req)
        && var e := MakeEmbed(req.body.value.members, config.displayName, timestamp);
           SendEmbed(EmbedEncodable(e), network).result.Sent?
  {
  }

  /** A deliverable request whose delivery does not succeed is answered 500:
      "failed to send" for an HTTP error, "unexpected error" for any other
      fault. */
  lemma FailedDeliveryAnswered500(config: Config, req: Request, timestamp: string,
                                  network: nat -> Answer, policy: Policy)
    requires Deliverable(config, req)
    ensures var h := Notify(config, req, timestamp, network, policy);
      var e := MakeEmbed(req.body.value.members, config.displayName, timestamp);
      var d := SendEmbed(EmbedEncodable(e), network);
      && (!d.result.Sent? ==> StatusCode(h.outcome) == 500)
      && (h.outcome.SendFailed? <==> d.result.HttpError?)
      && (h.outcome.Unexpected? <==> d.result.Fault?)
  {
  }

  /** The platform is posted to twice only after a rate-limited first post. */
  lemma SecondPostOnlyAfterRateLimit(config: Config, req: Request, timestamp: string,
                                     network: nat -> Answer, policy: Policy)
    ensures Notify(config, req, timestamp, network, policy).posts == 2 <==>
      && Deliverable(config, req)
      && EmbedEncodable(MakeEmbed(req.body.value.members, config.displayName, timestamp))
      && network(0) == Answer(429, true)
  {
  }

  /** A JSON body that is not an object is never delivered, and is not
      answered 200.  Once authorised, null, booleans and numbers crash the
      `in` test; a string or list holding "command" passes it and crashes
      the embed builder; either way the framework answers 500.  A string or
      list without "command" gets the handler's 400. */
  lemma NonObjectNeverDelivered(config: Config, auth: Option<string>, v: Json,
                                timestamp: string, network: nat -> Answer, policy: Policy)
    requires !v.JObject?
    ensures var h := Notify(config, Request(auth, Decoded(v)), timestamp, network, policy);
      h.posts == 0 && h.sent == None && StatusCode(h.outcome) != 200
    ensures var h := Notify(config, Request(auth, Decoded(v)), timestamp, network, policy);
      AuthOk(config.secret, auth) ==>
        && ((v.JAtom? || v.JNonFinite?) ==> h.outcome == FrameworkError)
        && (Membership("command", v) == Some(false) ==> h.outcome == MissingCommand)
        && (Membership("command", v) == Some(true) ==> h.outcome == FrameworkError)
  {
  }

  /** A deliverable request whose bot name or description holds NaN or an
      infinity fails with "unexpected error" before anything is posted. */
  lemma NonFiniteNeverPosted(config: Config, req: Request, timestamp: string,
                             network: nat -> Answer, policy: Policy)
    requires Deliverable(config, req)
    requires var p := req.body.value.members;
      !Encodable(BotNameOf(p)) || !Encodable(DescriptionOf(p))
    ensures var h := Notify(config, req, timestamp, network, policy);
      h.outcome == Unexpected && StatusCode(h.outcome) == 500 && h.posts == 0
  {
    EncodableIff(req.body.value.members, config.displayName, timestamp);
  }

  /** The two details rules change nothing but the details of a failed
      delivery: the posts, the embed and the status code are the same. */
  lemma PoliciesDifferOnlyInDetails(config: Config, req: Request, timestamp: string,
                                    network: nat -> Answer)
    ensures var a := Notify(config, req, timestamp, network, AsWritten);
      var c := Notify(config, req, timestamp, network, Corrected);
      && a.posts == c.posts
      && a.sent == c.sent
      && StatusCode(a.outcome) == StatusCode(c.outcome)
      && (a.outcome != c.outcome ==> a.outcome.SendFailed? && c.outcome.SendFailed?)
  {
  }

  /** A deliverable request with an encodable embed whose first post is
      answered 200 is answered 200 after that one post. */
  lemma AcceptedOnFirstPost(config: Config, req: Request, timestamp: string,
                            network: nat -> Answer, policy: Policy)
    requires Deliverable(config, req)
    requires EmbedEncodable(MakeEmbed(req.body.value.members, config.displayName, timestamp))
    requires network(0) == Answer(200, false)
    ensures var h := Notify(config, req, timestamp, network, policy);
      h.outcome == Accepted && h.posts == 1
  {
  }

  /** A deliverable request with an encodable embed whose first post gets a
      500 is answered 500 after a single post.  As written, the details are
      the exception's text; corrected, they are the platform's response. */
  lemma ServerErrorAnswered500(config: Config, req: Request, timestamp: string,
                               network: nat -> Answer, policy: Policy)
    requires Deliverable(config, req)
    requires EmbedEncodable(MakeEmbed(req.body.value.members, config.displayName, timestamp))
    requires network(0).Answer? && network(0).status == 500
    ensures var h := Notify(config, req, timestamp, network, policy);
      && StatusCode(h.outcome) == 500
      && h.posts == 1
      && (policy == AsWritten ==> h.outcome == SendFailed(ExceptionText))
      && (policy == Corrected ==> h.outcome == SendFailed(ResponseText(500)))
  {
  }

  /** The payload of a sample ban notification. */
  const BanPayload: seq<(string, Json)> :=
    [("command", JStr("ban")), ("username", JStr("alice")),
     ("user_id", JStr("42")), ("description", JStr("banned for spam"))]

  /** The sample ban payload's keys and their values; it has no bot name. */
  lemma BanPayloadValues(p: seq<(string, Json)>)
    requires p == BanPayload
    ensures HasKey(p, "command")
    ensures CommandOf(p) == JStr("ban")
    ensures UsernameOf(p) == JStr("alice")
    ensures UserIdOf(p) == JStr("42")
    ensures DescriptionOf(p) == JStr("banned for spam")
    ensures BotNameOf(p) == JStr("Unknown Bot")
  {
    GetAt(p, "command", 0);
    GetAt(p, "username", 1);
    GetAt(p, "user_id", 2);
    GetAt(p, "description", 3);
    assert forall i :: 0 <= i < |p| ==> p[i].0 != "bot_name";
  }

  /** The sample ban notification's embed shows the command, the user and
      the description. */
  lemma BanEmbed(p: seq<(string, Json)>, displayName: string, timestamp: string)
    requires p == BanPayload
    ensures var f := MakeEmbed(p, displayName, timestamp).fields;
      && f[0].value == JStr("`ban`")
      && f[1].value == JStr("alice (`42`)")
      && f[3].value == JStr("banned for spam")
  {
    BanPayloadValues(p);
    FixedPrefix(p, displayName, timestamp);
    BanTexts();
  }

  /** The texts of the sample ban notification's formatted fields.  A
      helper for the solver: it keeps these literal concatenations out of
      the larger proofs that use them. */
  lemma BanTexts()
    ensures "`" + "ban" + "`" == "`ban`"
    ensures "alice" + " (`" + "42" + "`)" == "alice (`42`)"
  {
    assert "`" + "ban" + "`" == "`ban`";
    assert "alice" + " (`" + "42" + "`)" == "alice (`42`)";
  }

  /** An open relay delivers the sample ban notification on the first post
      and answers 200. */
  lemma BanExample(config: Config, req: Request, timestamp: string, network: nat -> Answer,
                   policy: Policy)
    requires config == Config(None, "CommandLoggerBot")
    requires req == Request(None, Decoded(JObject(BanPayload)))
    requires network(0) == Answer(200, false)
    ensures var h := Notify(config, req, timestamp, network, policy);
      && h.outcome == Accepted
      && h.posts == 1
      && h.sent == Some(MakeEmbed(BanPayload, "CommandLoggerBot", timestamp))
  {
    BanPayloadValues(BanPayload);
    EncodableIff(BanPayload, config.displayName, timestamp);
    AcceptedOnFirstPost(config, req, timestamp, network, policy);
  }
}

=== FILE: wrappers.dfy ===
/** Optional values, used for a missing header, a missing payload key and a
    Python operation that raises instead of producing a value. */
module Wrappers {

  datatype Option<+T> = None | Some(value: T) {

    /** The wrapped value, or `default` when there is none (Python's
        `d.get(key, default)`). */
    function GetOr(default: T): (r: T)
      ensures Some? ==> r == value
      ensures None? ==> r == default
    {
      match this
      case Some(v) => v
      case None => default
    }
  }
}
